=== FILE: README.md ===
# Ultrasonic rover: firmware decisions and host policy in Dafny

This project models the decision logic of a small rover. An Arduino Nano
reads three HC-SR04 ultrasonic sensors (front, left, right). It prints the
distances as a `{"F":..,"L":..,"R":..}` line at most every 150 ms. It drives
two motors through L298N bridges in response to single-byte commands. A
Raspberry Pi script reads those lines and answers each one with a short
sequence of command bytes drawn from `F`, `B`, `L`, `R` and `S`.

Hardware calls become data:
- the echo duration that `pulseIn` measures is an input;
- the `millis()` clock is an input in 32-bit unsigned arithmetic;
- the bytes waiting on the serial line are an input sequence;
- the pin writes are fields of an immutable drive-state record.

Modules:
- `Rangefinder` (`rangefinder.dfy`): `readHCSR04`'s conversion from echo time to centimetres, with the 999 sentinel.
- `Motors` (`motors.dfy`): the five motion primitives as pure functions to a whole drive state, plus a decoding of direction lines back to a motion.
- `Commands` (`commands.dfy`): the command `switch` and the serial drain as a left fold over bytes; also the loop as a method.
- `Record` (`record.dfy`): the printed telemetry line, and a reader for it that stands in for the host's `json.loads` on exactly those lines.
- `Telemetry` (`telemetry.dfy`): the 150 ms emission gate on the wrapping clock.
- `Firmware` (`firmware.dfy`): `setup` and one pass of `loop` over an explicit state record.
- `Host` (`host.dfy`): `decide_and_act`, the key defaults, `str.strip()` and the `{`…`}` line filter.
- `Rover` (`rover.dfy`): properties of the firmware and the host together.
- `Wrappers` (`wrappers.dfy`): an `Option` type.

Notes on the firmware's arithmetic:
- The distance is `duration * 0.0343 / 2.0`, truncated toward zero when it is stored in a `long`.
- A timeout shows up as a zero duration from `pulseIn`, which reads as 999. A duration equal to the 30 ms timeout converts to 514 cm. Only durations of 35044 µs or more reach the 600 cm clamp, and `pulseIn` never reports those within its 30 ms wait (`Rangefinder.WithinTimeoutNeverClamped`).
- The command interpreter drives at duty 120 for `F`/`B` and 110 for `L`/`R`. No caller uses the primitives' default of 140.

## Model

| member | source | states |
|---|---|---|
| Rangefinder.EchoToDistance | arduino_ultrasonic.cpp:48-52 | a zero duration gives 999; every result is 999 or in [0, 600]; the result is 999 exactly when the duration is 0 or at least 35044 µs; otherwise it is the truncated quotient, bracketed as d*20000 <= duration*343 < (d+1)*20000 |
| Rangefinder.EchoToDistanceMonotone | arduino_ultrasonic.cpp:50-52 | a longer non-zero echo never gives a shorter real reading, and a shorter echo under a real reading is itself real |
| Rangefinder.WithinTimeoutNeverClamped | arduino_ultrasonic.cpp:48-51 | every non-zero duration within the 30 ms `pulseIn` wait converts to at most 514 cm, so the clamp never fires on it |
| Rangefinder.ClampBoundary | arduino_ultrasonic.cpp:50-51 | 35043 µs reads 600 cm and 35044 µs reads as the sentinel |
| Motors.ForwardMotor | arduino_ultrasonic.cpp:55-62 | both channels decode as ahead (IN1 high, IN2 low), both at the given duty |
| Motors.BackwardMotor | arduino_ultrasonic.cpp:64-69 | both channels astern, and the state is forward with IN1/IN2 swapped on each channel |
| Motors.TurnLeft | arduino_ultrasonic.cpp:71-77 | left wheel astern, right wheel ahead, same duty on both enables |
| Motors.TurnRight | arduino_ultrasonic.cpp:79-84 | decodes as a right pivot and is the left pivot with the channels exchanged |
| Motors.StopMotors | arduino_ultrasonic.cpp:86-91 | all four direction lines low, both duties 0; symmetric under reversal and mirroring |
| Motors.Actuate | arduino_ultrasonic.cpp:55-91 | each motion's pin state decodes back to that motion; moving motions put the same duty on both enables, stop puts 0 |
| Motors.ActuateInjective | arduino_ultrasonic.cpp:55-91 | two primitives that write the same pins are the same motion, and the same duty unless stopping |
| Motors.PrimitivesNoShootThrough | arduino_ultrasonic.cpp:55-91 | no primitive at any duty leaves both inputs of a channel high |
| Commands.Dispatch | arduino_ultrasonic.cpp:113-121 | a byte in {F,B,L,R,S} sets the state that the command table gives for it, whatever the state before; any other byte leaves the state unchanged; consistent states stay consistent |
| Commands.Drain | arduino_ultrasonic.cpp:112-122 | a buffer with no command byte, empty included, changes nothing; draining keeps the drive state consistent |
| Commands.DrainAppend | arduino_ultrasonic.cpp:112-122 | bytes are applied in arrival order: draining a then b equals draining a + b |
| Commands.LastCommand | arduino_ultrasonic.cpp:112-122 | the command found is a command byte of the buffer; there is none iff the buffer holds no command byte |
| Commands.LastCommandIsLast | arduino_ultrasonic.cpp:112-122 | the command found sits at a position with no command byte after it, so it is the last one |
| Commands.DrainLastWins | arduino_ultrasonic.cpp:112-122 | after a drain the motors hold the effect of the last command byte, or are unchanged if there is none |
| Commands.DrainForgets | arduino_ultrasonic.cpp:112-122 | once a buffer holds a command byte, the drained state does not depend on the state before |
| Commands.StopResets | arduino_ultrasonic.cpp:119 | a final 'S' leaves the motors stopped, whatever preceded it |
| Commands.DrainExampleFXS | arduino_ultrasonic.cpp:112-122 | "FXS" ends stopped |
| Commands.DrainExampleFL | arduino_ultrasonic.cpp:112-122 | "FL" ends in the left pivot at duty 110 |
| Commands.ConsistentDuties | arduino_ultrasonic.cpp:115-119 | a consistent state has no shoot-through, equal duties, a duty in {0, 110, 120}, and duty 0 exactly when stopped |
| Commands.DrainSerial | arduino_ultrasonic.cpp:112-122 | the byte-at-a-time loop computes the fold, so it ends in the last command's effect or in the unchanged state |
| Record.Decimal | arduino_ultrasonic.cpp:104-106 | `Serial.print` of a `long` is never empty, and starts with a digit exactly when the value is not negative (otherwise with `-`) |
| Record.ParseInt | raspi_python.py:71 | a number that starts with `0` followed by another digit is refused, as JSON refuses leading zeros; anything read is a non-empty prefix of the text and leaves the rest as a suffix |
| Record.ParseIntDecimal | arduino_ultrasonic.cpp:104-106 | a printed `long` reads back as the same integer and leaves the following text untouched |
| Record.Format | arduino_ultrasonic.cpp:104-107 | the printed record starts with `{` and ends with `}` |
| Record.Parse | raspi_python.py:69-71 | a record read from a line has exactly the keys F, L and R; the line starts with `{"F":` and ends with `}` |
| Record.ParseFormat | arduino_ultrasonic.cpp:104-107 | reading a printed record gives back exactly the three distances under keys F, L and R |
| Record.FormatInjective | arduino_ultrasonic.cpp:104-107 | different readings print different lines |
| Record.FormatExample | arduino_ultrasonic.cpp:104-107 | readings 20, 999, 999 print `{"F":20,"L":999,"R":999}` |
| Telemetry.Elapsed | arduino_ultrasonic.cpp:102 | unsigned subtraction: the plain difference before a wrap, the difference plus 2^32 across one; adding it to the last time gives now modulo 2^32 |
| Telemetry.Gate | arduino_ultrasonic.cpp:101-109 | a line goes out iff the wrapped elapsed time is at least 150; then `lastSerial` becomes now and the line ends in CR LF and reads back as the three distances; otherwise `lastSerial` is kept |
| Telemetry.EmissionTimes | arduino_ultrasonic.cpp:101-109 | the record times are a subsequence of the pass times, in order, at most one per pass and never a backlog; a first pass that is due emits; no record goes out iff no pass is 150 ms past the initial `lastSerial` |
| Telemetry.EmissionsSpaced | arduino_ultrasonic.cpp:101-108 | consecutive records are at least 150 ms apart on the wrapping clock, and the first is at least 150 ms after the initial `lastSerial` |
| Telemetry.DueWithoutWrap | arduino_ultrasonic.cpp:102 | before a wrap, for any distances, a line goes out iff the plain difference is at least 150 |
| Telemetry.DueAcrossWrap | arduino_ultrasonic.cpp:102 | for every wrap (now < lastSerial) and any distances, a line goes out iff now + 2^32 - lastSerial is at least 150 |
| Telemetry.DueAcrossWrapExample | arduino_ultrasonic.cpp:102 | with the last record 100 ms before the wrap, the gate is shut at 49 and open at 50 |
| Firmware.Setup | arduino_ultrasonic.cpp:24-29 | setup leaves the motors stopped, a consistent state, and `lastSerial` at 0 |
| Firmware.Loop | arduino_ultrasonic.cpp:93-126 | one pass: the motors are the drain of the inbound bytes; a line goes out iff the gate opens; a line reads back as the three converted echo times; consistency is kept |
| Firmware.RunConsistent | arduino_ultrasonic.cpp:112-122 | any number of passes from a consistent state stays consistent |
| Firmware.ReachableDuties | arduino_ultrasonic.cpp:115-119 | from setup on, no channel ever has both inputs high, both duties are equal, and the duty is 0, 110 or 120 |
| Firmware.QuietPassKeepsMotors | arduino_ultrasonic.cpp:112 | a pass with nothing on the serial line leaves the motors untouched |
| Host.Turn | raspi_python.py:40-43 | the turn is L exactly when left is strictly larger than right, so ties turn R |
| Host.Decide | raspi_python.py:24-59 | output non-empty, over {F,B,L,R,S}; ends in S iff edge or close obstacle, in F otherwise; contains B iff it reacts; on a tie it turns left only at an edge |
| Host.DecideRegions | raspi_python.py:24-59 | exact bytes per region: SBSLS at f >= 900; SBS, turn, S for 0 < f < 18; turn then F for f <= 0 or 18 <= f < 50; F for 50 <= f < 900 |
| Host.EdgeIgnoresSides | raspi_python.py:24-31 | at an edge the side readings do not matter |
| Host.TurnMirror | raspi_python.py:50-55 | swapping unequal side readings swaps the turn |
| Host.Reading | raspi_python.py:18-20 | a present key gives its value, a missing key gives 999 |
| Host.DecideAndAct | raspi_python.py:17-20 | a missing F gives the edge reaction; with F present, each missing side reads as 999; missing L and R tie, so no left turn unless at an edge |
| Host.LeadingSpace | raspi_python.py:65 | the count of leading whitespace characters: all of them are whitespace, and the character after them is not |
| Host.Strip | raspi_python.py:65 | the result is the slice of the line that starts right after its leading whitespace, only whitespace follows it, and it has no whitespace at either end |
| Host.StripFixed | raspi_python.py:65 | text with no outer whitespace is unchanged |
| Host.StripLineEnd | raspi_python.py:65 | stripping removes the CR LF that `println` appends |
| Host.FramedByEnds | raspi_python.py:69 | a line passes the framing test (non-empty, `{` as a prefix, `}` as a suffix) exactly when its first character is `{` and its last is `}` |
| Host.HandleLine | raspi_python.py:63-74 | blank lines, lines not framed by `{`…`}` and lines `Record.Parse` does not read send nothing; a framed line that reads as a record sends `decide_and_act` of that record, and nothing else is ever sent |
| Host.HandleReadableLine | raspi_python.py:69-72 | a line that strips to a framed, readable record is answered with `decide_and_act` of it |
| Host.LeadingZeroLineIgnored | raspi_python.py:69-74 | a line whose front reading is written with a leading zero is refused like any JSON error and sends nothing |
| Rover.ReactionOutcome | raspi_python.py:24-59 | once the firmware drains the host's answer, the motors are stopped after an edge or close obstacle and driving forward at 120 otherwise, whatever they did before |
| Rover.ReactionConsistent | raspi_python.py:24-59 | draining any host answer keeps the firmware's drive state consistent |
| Rover.EdgeIsSentinel | raspi_python.py:12 | a measured front distance falls in the edge branch exactly when it is the 999 sentinel |
| Rover.TimeoutIsEdge | arduino_ultrasonic.cpp:49 | a front echo timeout makes the host send SBSLS |
| Rover.MissingKeyMatchesSentinel | raspi_python.py:18-24 | a record without F is decided as the 999 sentinel ahead, with the side readings it does have |
| Rover.TelemetryLineReadable | raspi_python.py:65-71 | a printed telemetry line, CR LF included, strips to a framed line that reads back as the three distances |
| Rover.DecideFullRecord | raspi_python.py:17-20 | a record with all three keys is decided on its own values |
| Rover.TelemetryReachesHost | raspi_python.py:65-72 | every printed telemetry line passes the host's filters and yields the answer for exactly its three distances |
| Rover.ClosedLoop | arduino_ultrasonic.cpp:101-122 | when the gate is open, the firmware's record reaches the host, and draining the host's answer leaves the motors stopped after an edge or close obstacle ahead and driving forward otherwise |

## Left out

- Pin configuration, trigger pulses and `pulseIn` busy-waiting: hardware. The echo duration is an input, never negative, and the model does not bound it by the 30 ms timeout.
- The `delay` and `delayMicroseconds` calls, and the host's `time.sleep` pauses between commands: real-time pacing with no logic. The host's answer is the ordered byte sequence it sends.
- Rangefinder.EchoToDistance: uses exact integer truncation of duration * 343 / 20000. The firmware computes it in 32-bit floating point, which can differ by one at exact integer boundaries.
- Motors.Actuate: duties are limited to 0..255. `analogWrite` behaviour outside that range is not modelled; every call in the firmware passes a literal 0, 110 or 120.
- Serial port setup, baud rate, byte transport, `readline` and UTF-8 decoding: I/O. A received line is a string input.
- Record.Parse: reads only records with all three keys F, L and R, each once, in the firmware's order, with integers in JSON form and no leading zeros. It reads integers of any length, while `json.loads` on CPython 3.11 and later refuses integers of more than 4300 digits (the interpreter's `int_max_str_digits` limit), so for such a line the host sends nothing. `json.loads` also accepts records with missing, extra or repeated keys, other key orders, whitespace and floats; those inputs, `int()` coercion of non-integer values and the text of the exception handlers are not modelled.
- Host.HandleLine: sends nothing for a framed line that `json.loads` reads but `Record.Parse` does not, such as `{"F":30}`, for which the host sends `R` then `F`. Such records reach the key defaults only through `Host.DecideAndAct` and `Rover.MissingKeyMatchesSentinel`, which take a decoded record directly. In the other direction, a framed record with an integer of more than 4300 digits is answered by `Host.HandleLine`, while the host, on CPython 3.11 and later, refuses it and sends nothing. The firmware prints 32-bit `long` values, of at most 11 characters, so no printed line comes near that limit.
- The host's `print` diagnostics and the `KeyboardInterrupt` handler that sends a final `S`: logging and process shutdown.
- The default duty of 140 in the primitives' signatures is kept as `Motors.DefaultPwm`. No caller uses it.

=== FILE: commands.dfy ===
/**
  The command interpreter of the firmware: the `switch` inside the
  `while (Serial.available())` drain of `loop`. Each byte is dispatched on
  its own, in arrival order; the motor state is the only memory.
 */
module Commands {
  import opened Wrappers
  import opened Motors

  /** Duty for 'F' and 'B'. */
  const DrivePwm: Duty := 120

  /** Duty for 'L' and 'R'. */
  const TurnPwm: Duty := 110

  /** The command alphabet shared by the host and the firmware. */
  predicate IsCommand(c: char)
  {
    c == 'F' || c == 'B' || c == 'L' || c == 'R' || c == 'S'
  }

  /** Command table: the motion each command byte selects. */
  function CommandMotion(c: char): Motion
    requires IsCommand(c)
  {
    match c
    case 'F' => Forward
    case 'B' => Backward
    case 'L' => PivotLeft
    case 'R' => PivotRight
    case 'S' => Halt
  }

  /** Command table: the duty used for each motion. */
  function MotionPwm(m: Motion): Duty
  {
    match m
    case Forward | Backward => DrivePwm
    case PivotLeft | PivotRight => TurnPwm
    case Halt => 0
  }

  /** The drive state a command byte produces, by the table. */
  function Effect(c: char): Drive
    requires IsCommand(c)
  {
    Actuate(CommandMotion(c), MotionPwm(CommandMotion(c)))
  }

  /**
    A drive state the interpreter can hold: a decodable motion whose duty,
    equal on both channels, is the one the table assigns to that motion.
   */
  predicate Consistent(d: Drive)
  {
    && MotionOf(d).Some?
    && d.left.pwm == MotionPwm(MotionOf(d).value)
    && d.right.pwm == d.left.pwm
  }

  /** One pass of the `switch`: a command byte sets the motors, any other byte is ignored. */
  function Dispatch(c: char, d: Drive): (d': Drive)
    ensures IsCommand(c) ==> d' == Effect(c) && MotionOf(d') == Some(CommandMotion(c))
    ensures !IsCommand(c) ==> d' == d
    ensures Consistent(d) ==> Consistent(d')
  {
    match c
    case 'F' => ForwardMotor(DrivePwm)
    case 'B' => BackwardMotor(DrivePwm)
    case 'L' => TurnLeft(TurnPwm)
    case 'R' => TurnRight(TurnPwm)
    case 'S' => StopMotors()
    case _ => d
  }

  /** Every byte of `bytes` is outside the command alphabet. */
  predicate NoCommands(bytes: seq<char>)
  {
    forall i :: 0 <= i < |bytes| ==> !IsCommand(bytes[i])
  }

  /** The drain: the bytes available on the serial line, dispatched first to last. */
  function Drain(bytes: seq<char>, d: Drive): (d': Drive)
    ensures NoCommands(bytes) ==> d' == d
    ensures Consistent(d) ==> Consistent(d')
    decreases |bytes|
  {
    if |bytes| == 0 then d
    else
      assert NoCommands(bytes) ==> NoCommands(bytes[1..]) by {
        forall i | 0 <= i < |bytes[1..]| ensures bytes[1..][i] == bytes[i + 1] { }
      }
      Drain(bytes[1..], Dispatch(bytes[0], d))
  }

  /** The last command byte in `bytes`, if there is one. */
  function LastCommand(bytes: seq<char>): (c: Option<char>)
    ensures c.Some? ==> IsCommand(c.value) && c.value in bytes
    ensures c.None? <==> NoCommands(bytes)
  {
    if |bytes| == 0 then None
    else if IsCommand(bytes[|bytes| - 1]) then Some(bytes[|bytes| - 1])
    else
      var c := LastCommand(bytes[..|bytes| - 1]);
      assert NoCommands(bytes[..|bytes| - 1]) && !IsCommand(bytes[|bytes| - 1]) ==> NoCommands(bytes);
      c
  }

  /** A non-command byte appended after a command-free tail keeps the tail command-free. */
  lemma NoCommandsAfter(init: seq<char>, x: char, i: nat)
    requires i < |init| && NoCommands(init[i + 1..]) && !IsCommand(x)
    ensures (init + [x])[i] == init[i]
    ensures NoCommands((init + [x])[i + 1..])
  {
    assert (init + [x])[i + 1..] == init[i + 1..] + [x];
  }

  /** The command `LastCommand` finds sits at a position with no command byte after it. */
  lemma {:induction false} LastCommandIsLast(bytes: seq<char>)
    ensures LastCommand(bytes).Some? ==>
              exists i :: 0 <= i < |bytes| && bytes[i] == LastCommand(bytes).value && NoCommands(bytes[i + 1..])
  {
    if |bytes| > 0 {
      var n := |bytes| - 1;
      if IsCommand(bytes[n]) {
        assert |bytes[n + 1..]| == 0;
        assert bytes[n] == LastCommand(bytes).value && NoCommands(bytes[n + 1..]);
      } else {
        var init := bytes[..n];
        assert bytes == init + [bytes[n]];
        assert LastCommand(bytes) == LastCommand(init);
        LastCommandIsLast(init);
        if LastCommand(init).Some? {
          var i :| 0 <= i < |init| && init[i] == LastCommand(init).value && NoCommands(init[i + 1..]);
          NoCommandsAfter(init, bytes[n], i);
          assert bytes[i] == LastCommand(bytes).value && NoCommands(bytes[i + 1..]);
        }
      }
    }
  }

  /** Draining two buffers one after the other is draining their concatenation. */
  lemma {:induction false} DrainAppend(a: seq<char>, b: seq<char>, d: Drive)
    ensures Drain(a + b, d) == Drain(b, Drain(a, d))
    decreases |a|
  {
    if |a| == 0 {
      assert a + b == b;
    } else {
      assert (a + b)[0] == a[0];
      assert (a + b)[1..] == a[1..] + b;
      DrainAppend(a[1..], b, Dispatch(a[0], d));
    }
  }

  /**
    Last command wins: after a drain the motors hold the effect of the last
    command byte; with no command byte in the buffer (or no buffer at all)
    they are exactly as before.
   */
  lemma {:induction false} DrainLastWins(bytes: seq<char>, d: Drive)
    ensures Drain(bytes, d) == match LastCommand(bytes)
                               case None => d
                               case Some(c) => Effect(c)
    decreases |bytes|
  {
    if |bytes| > 0 {
      var init, x := bytes[..|bytes| - 1], bytes[|bytes| - 1];
      assert bytes == init + [x];
      DrainAppend(init, [x], d);
      if !IsCommand(x) {
        DrainLastWins(init, d);
      }
    }
  }

  /** The state after a drain does not depend on the state before it, once a command arrived. */
  lemma DrainForgets(bytes: seq<char>, d1: Drive, d2: Drive)
    requires !NoCommands(bytes)
    ensures Drain(bytes, d1) == Drain(bytes, d2)
  {
    DrainLastWins(bytes, d1);
    DrainLastWins(bytes, d2);
  }

  /** 'S' resets the motors whatever came before it in the same drain. */
  lemma StopResets(bytes: seq<char>, d: Drive)
    ensures Drain(bytes + ['S'], d) == StopMotors()
  {
    DrainAppend(bytes, ['S'], d);
  }

  /** "FXS": 'S' overrides 'F' and the unknown 'X' changes nothing. */
  lemma DrainExampleFXS(d: Drive)
    ensures Drain("FXS", d) == StopMotors()
  {
  }

  /** "FL": only the pivot survives. */
  lemma DrainExampleFL(d: Drive)
    ensures Drain("FL", d) == TurnLeft(TurnPwm)
  {
  }

  /** Every consistent state has duty 0, 110 or 120 on both channels, and duty 0 exactly when halted. */
  lemma ConsistentDuties(d: Drive)
    requires Consistent(d)
    ensures NoShootThrough(d)
    ensures d.left.pwm == d.right.pwm
    ensures d.left.pwm == 0 || d.left.pwm == TurnPwm || d.left.pwm == DrivePwm
    ensures d.left.pwm == 0 <==> MotionOf(d) == Some(Halt)
  {
  }

  /**
    The `while (Serial.available())` loop itself: reads the buffered bytes one
    at a time and dispatches each.
   */
  method DrainSerial(buffer: seq<char>, d: Drive) returns (d': Drive)
    ensures d' == Drain(buffer, d)
    ensures LastCommand(buffer).None? ==> d' == d
    ensures LastCommand(buffer).Some? ==> d' == Effect(LastCommand(buffer).value)
  {
    DrainLastWins(buffer, d);
    d' := d;
    var i := 0;
    while i < |buffer|
      invariant 0 <= i <= |buffer|
      invariant Drain(buffer, d) == Drain(buffer[i..], d')
    {
      var c := buffer[i];
      assert buffer[i..][1..] == buffer[i + 1..];
      d' := Dispatch(c, d');
      i := i + 1;
    }
  }
}

=== FILE: firmware.dfy ===
/**
  The firmware as a whole: `setup` and one pass of `loop`, over an explicit
  state record instead of globals. The hardware supplies, per pass, the
  three echo durations, the `millis()` reading and the bytes waiting on the
  serial line; the pass yields the new state and the telemetry line, if one
  was printed. The fixed `delay` calls only pace the loop and are dropped.
 */
module Firmware {
  import opened Wrappers
  import opened Motors
  import Commands
  import Rangefinder
  import Telemetry
  import Record

  /** Motor outputs and `lastSerial`, the firmware's whole persistent state. */
  datatype State = State(drive: Drive, lastSerial: Telemetry.U32)

  /** What the hardware supplies during one pass of `loop`. */
  datatype Cycle = Cycle(echoF: nat, echoL: nat, echoR: nat, now: Telemetry.U32, inbound: seq<char>)

  /** The state after a pass and the telemetry line it printed, if any. */
  datatype Step = Step(state: State, line: Option<string>)

  /** `setup`: motors stopped first, `lastSerial` at its initial 0. */
  function Setup(): (s: State)
    ensures s.drive == StopMotors()
    ensures Commands.Consistent(s.drive)
    ensures s.lastSerial == 0
  {
    State(StopMotors(), 0)
  }

  /** One pass of `loop`: measure front, left, right; maybe print; drain commands. */
  function Loop(s: State, c: Cycle): (r: Step)
    ensures Commands.Consistent(s.drive) ==> Commands.Consistent(r.state.drive)
    ensures r.state.drive == Commands.Drain(c.inbound, s.drive)
    ensures r.line.Some? <==> Telemetry.Elapsed(c.now, s.lastSerial) >= Telemetry.SerialPeriodMs
    ensures r.line.Some? ==> r.state.lastSerial == c.now
    ensures r.line.None? ==> r.state.lastSerial == s.lastSerial
    ensures r.line.Some? ==>
              && |r.line.value| > |Record.LineEnd|
              && Record.Parse(r.line.value[..|r.line.value| - |Record.LineEnd|])
                 == Some(map["F" := Rangefinder.EchoToDistance(c.echoF),
                             "L" := Rangefinder.EchoToDistance(c.echoL),
                             "R" := Rangefinder.EchoToDistance(c.echoR)])
  {
    var dF := Rangefinder.EchoToDistance(c.echoF);
    var dL := Rangefinder.EchoToDistance(c.echoL);
    var dR := Rangefinder.EchoToDistance(c.echoR);
    var e := Telemetry.Gate(s.lastSerial, c.now, dF, dL, dR);
    Step(State(Commands.Drain(c.inbound, s.drive), e.lastSerial), e.line)
  }

  /** The state after a run of passes. */
  function Run(s: State, cycles: seq<Cycle>): State
    decreases |cycles|
  {
    if |cycles| == 0 then s else Run(Loop(s, cycles[0]).state, cycles[1..])
  }

  /**
    From `setup` on, the motors are always in a state the command table
    produces: never both inputs high on a channel, the same duty on both
    channels, and that duty 0, 110 or 120.
   */
  lemma {:induction false} RunConsistent(s: State, cycles: seq<Cycle>)
    requires Commands.Consistent(s.drive)
    ensures Commands.Consistent(Run(s, cycles).drive)
    decreases |cycles|
  {
    if |cycles| > 0 {
      RunConsistent(Loop(s, cycles[0]).state, cycles[1..]);
    }
  }

  lemma ReachableDuties(cycles: seq<Cycle>)
    ensures var d := Run(Setup(), cycles).drive;
            && NoShootThrough(d)
            && d.left.pwm == d.right.pwm
            && d.left.pwm in {0, Commands.TurnPwm, Commands.DrivePwm}
  {
    RunConsistent(Setup(), cycles);
    Commands.ConsistentDuties(Run(Setup(), cycles).drive);
  }

  /** A pass with no serial input leaves the motors exactly as they were. */
  lemma QuietPassKeepsMotors(s: State, c: Cycle)
    requires |c.inbound| == 0
    ensures Loop(s, c).state.drive == s.drive
  {
  }
}

=== FILE: host.dfy ===
/**
  The host-side policy: `decide_and_act` turns the front, left and right
  distances of one telemetry record into the command bytes it sends back,
  and the main loop decides which received lines reach it. Sleeps between
  commands and diagnostic prints are timing and logging only.
 */
module Host {
  import opened Wrappers
  import Commands
  import Record

  /** Front distance below which the rover backs off and turns, in centimetres. */
  const ObstacleClose := 18

  /** Front distance below which the rover nudges away from the nearer side. */
  const ObstacleWarn := 50

  /** Front distance from which the reading is taken as a drop-off edge. */
  const EdgeTimeout := 900

  /** Distance used for a key missing from the record. */
  const MissingReading := 999

  /** The edge branch: no echo, or an implausibly large distance. */
  predicate IsEdge(f: int)
  {
    f >= EdgeTimeout
  }

  /** The close-obstacle branch, reached only when the edge branch is not taken. */
  predicate IsClose(f: int)
  {
    !IsEdge(f) && 0 < f < ObstacleClose
  }

  /** The two branches that back off and end stopped. */
  predicate Reacts(f: int)
  {
    IsEdge(f) || IsClose(f)
  }

  /** Turn toward the side with more room; ties go right. */
  function Turn(l: int, r: int): (c: char)
    ensures c == 'L' || c == 'R'
    ensures c == 'L' <==> l > r
  {
    if l > r then 'L' else 'R'
  }

  /** `decide_and_act` without its sleeps and prints: the bytes sent, in order. */
  function Decide(f: int, l: int, r: int): (cmds: string)
    ensures |cmds| > 0
    ensures forall i :: 0 <= i < |cmds| ==> Commands.IsCommand(cmds[i])
    ensures cmds[|cmds| - 1] == 'S' <==> Reacts(f)
    ensures cmds[|cmds| - 1] == 'F' <==> !Reacts(f)
    ensures 'B' in cmds <==> Reacts(f)
    ensures l == r ==> ('L' in cmds <==> IsEdge(f))
  {
    if f >= EdgeTimeout then "SBSLS"
    else if f > 0 && f < ObstacleClose then "SBS" + [Turn(l, r)] + "S"
    else if f < ObstacleWarn then [Turn(l, r), 'F']
    else "F"
  }

  /**
    The four regions of the front reading and the exact bytes each sends.
    The caution region also takes non-positive readings, which the
    close-obstacle test excludes.
   */
  lemma DecideRegions(f: int, l: int, r: int)
    ensures f >= EdgeTimeout ==> Decide(f, l, r) == ['S', 'B', 'S', 'L', 'S']
    ensures 0 < f < ObstacleClose ==> Decide(f, l, r) == ['S', 'B', 'S', Turn(l, r), 'S']
    ensures (f <= 0 || ObstacleClose <= f < ObstacleWarn) ==> Decide(f, l, r) == [Turn(l, r), 'F']
    ensures ObstacleWarn <= f < EdgeTimeout ==> Decide(f, l, r) == ['F']
  {
  }

  /** At an edge the side readings are ignored. */
  lemma EdgeIgnoresSides(f: int, l1: int, r1: int, l2: int, r2: int)
    requires IsEdge(f)
    ensures Decide(f, l1, r1) == Decide(f, l2, r2)
  {
  }

  /** Swapping the side readings swaps the turn, except on a tie. */
  lemma TurnMirror(l: int, r: int)
    requires l != r
    ensures Turn(l, r) != Turn(r, l)
  {
  }

  /** `int(data.get(key, 999))`. */
  function Reading(data: map<string, int>, key: string): (v: int)
    ensures key in data ==> v == data[key]
    ensures key !in data ==> v == MissingReading
  {
    if key in data then data[key] else MissingReading
  }

  /** `decide_and_act` on a decoded record. */
  function DecideAndAct(data: map<string, int>): (cmds: string)
    ensures "F" !in data ==> cmds == "SBSLS"
    ensures "L" !in data && "R" !in data && "F" in data && !IsEdge(data["F"]) ==> 'L' !in cmds
    ensures "F" in data ==>
              cmds == Decide(data["F"],
                             if "L" in data then data["L"] else MissingReading,
                             if "R" in data then data["R"] else MissingReading)
  {
    Decide(Reading(data, "F"), Reading(data, "L"), Reading(data, "R"))
  }

  /** The characters Python's `str.strip()` removes: those for which `str.isspace()` holds. */
  predicate IsSpace(c: char)
  {
    ('\t' <= c <= '\r') || ('\U{1c}' <= c <= ' ') || c == '\U{85}' || c == '\U{a0}' || c == '\U{1680}'
    || ('\U{2000}' <= c <= '\U{200a}') || c == '\U{2028}' || c == '\U{2029}' || c == '\U{202f}'
    || c == '\U{205f}' || c == '\U{3000}'
  }

  predicate AllSpace(s: string)
  {
    forall i :: 0 <= i < |s| ==> IsSpace(s[i])
  }

  /** A whitespace character before an all-whitespace run makes a longer all-whitespace run. */
  lemma SpaceBefore(s: string, k: nat)
    requires 0 < k <= |s| && IsSpace(s[0]) && AllSpace(s[1..k])
    ensures AllSpace(s[..k])
  {
    forall i | 0 <= i < k
      ensures IsSpace(s[..k][i])
    {
      if i > 0 {
        assert s[..k][i] == s[1..k][i - 1];
      }
    }
  }

  /** A whitespace character after an all-whitespace run makes a longer all-whitespace run. */
  lemma SpaceAfter(s: string, k: nat)
    requires k < |s| && IsSpace(s[|s| - 1]) && AllSpace(s[k..|s| - 1])
    ensures AllSpace(s[k..])
  {
    forall i | 0 <= i < |s| - k
      ensures IsSpace(s[k..][i])
    {
      if i < |s| - 1 - k {
        assert s[k..][i] == s[k..|s| - 1][i];
      }
    }
  }

  /** Dropping one leading whitespace character before a trimmed suffix keeps `TrimStart`'s contract. */
  lemma TrimStartStep(s: string, t: string)
    requires |s| > 0 && IsSpace(s[0])
    requires |t| <= |s| - 1 && t == s[1..][|s| - 1 - |t|..]
    requires AllSpace(s[1..][..|s| - 1 - |t|])
    ensures t == s[|s| - |t|..]
    ensures AllSpace(s[..|s| - |t|])
  {
    var k := |s| - |t|;
    assert s[1..][..k - 1] == s[1..k];
    SpaceBefore(s, k);
  }

  /** Dropping one trailing whitespace character after a trimmed prefix keeps `TrimEnd`'s contract. */
  lemma TrimEndStep(s: string, t: string)
    requires |s| > 0 && IsSpace(s[|s| - 1])
    requires |t| <= |s| - 1 && t == s[..|s| - 1][..|t|]
    requires AllSpace(s[..|s| - 1][|t|..])
    ensures t == s[..|t|]
    ensures AllSpace(s[|t|..])
  {
    assert s[..|s| - 1][|t|..] == s[|t|..|s| - 1];
    SpaceAfter(s, |t|);
  }

  function TrimStart(s: string): (t: string)
    ensures |t| <= |s| && t == s[|s| - |t|..]
    ensures AllSpace(s[..|s| - |t|])
    ensures |t| == 0 || !IsSpace(t[0])
  {
    if |s| > 0 && IsSpace(s[0]) then
      var t := TrimStart(s[1..]);
      TrimStartStep(s, t);
      t
    else s
  }

  function TrimEnd(s: string): (t: string)
    ensures |t| <= |s| && t == s[..|t|]
    ensures AllSpace(s[|t|..])
    ensures |t| == 0 || !IsSpace(t[|t| - 1])
  {
    if |s| > 0 && IsSpace(s[|s| - 1]) then
      var t := TrimEnd(s[..|s| - 1]);
      TrimEndStep(s, t);
      t
    else s
  }

  /** How many whitespace characters `str.strip()` removes from the front of `s`. */
  function LeadingSpace(s: string): (k: nat)
    ensures k <= |s| && AllSpace(s[..k])
    ensures k < |s| ==> !IsSpace(s[k])
  {
    |s| - |TrimStart(s)|
  }

  /**
    A prefix `t` of the suffix `a` of `s` from `i`, followed in `a` only by
    whitespace, is the slice of `s` from `i` of its length, and only
    whitespace follows it in `s`.
   */
  lemma PrefixOfSuffix(s: string, i: nat, a: string, t: string)
    requires i <= |s| && a == s[i..]
    requires |t| <= |a| && t == a[..|t|] && AllSpace(a[|t|..])
    ensures i + |t| <= |s|
    ensures t == s[i..i + |t|]
    ensures AllSpace(s[i + |t|..])
  {
    assert s[i + |t|..] == a[|t|..];
  }

  /**
    `str.strip()`: the piece of `s` after its leading whitespace, with only
    whitespace cut from the end, and no whitespace left at either end.
   */
  function Strip(s: string): (t: string)
    ensures |t| == 0 || (!IsSpace(t[0]) && !IsSpace(t[|t| - 1]))
    ensures LeadingSpace(s) + |t| <= |s|
    ensures t == s[LeadingSpace(s)..LeadingSpace(s) + |t|]
    ensures AllSpace(s[LeadingSpace(s) + |t|..])
  {
    var a := TrimStart(s);
    var t := TrimEnd(a);
    PrefixOfSuffix(s, LeadingSpace(s), a, t);
    t
  }

  /** Text that is already stripped comes back unchanged. */
  lemma StripFixed(s: string)
    requires |s| > 0 && !IsSpace(s[0]) && !IsSpace(s[|s| - 1])
    ensures Strip(s) == s
  {
  }

  /** Stripping removes a trailing CR LF from a line that otherwise has no outer whitespace. */
  lemma StripLineEnd(body: string)
    requires |body| > 0 && !IsSpace(body[0]) && !IsSpace(body[|body| - 1])
    ensures Strip(body + Record.LineEnd) == body
  {
    var s := body + Record.LineEnd;
    assert s[0] == body[0];
    assert TrimStart(s) == s;
    assert s[..|s| - 1] == body + "\r";
    assert (body + "\r")[..|body|] == body;
    assert TrimEnd(body + "\r") == TrimEnd(body);
  }

  /** The host's framing test: the line has `{` as a prefix and `}` as a suffix. */
  predicate Framed(line: string)
  {
    |line| > 0 && "{" <= line && line[|line| - 1..] == "}"
  }

  /** The framing test looks only at the first and the last character of the line. */
  lemma FramedByEnds(line: string)
    ensures Framed(line) <==> |line| > 0 && line[0] == '{' && line[|line| - 1] == '}'
  {
  }

  /**
    One pass of the host's main loop over a received line: blank lines are
    skipped, only `{`…`}` lines are decoded, and a decoded record is acted
    on. The result is the bytes sent, or None when nothing is sent.
   */
  function HandleLine(raw: string): (sent: Option<string>)
    ensures |Strip(raw)| == 0 ==> sent.None?
    ensures !Framed(Strip(raw)) ==> sent.None?
    ensures sent.Some? ==> Record.Parse(Strip(raw)).Some?
                           && sent.value == DecideAndAct(Record.Parse(Strip(raw)).value)
    ensures Framed(Strip(raw)) && Record.Parse(Strip(raw)).Some? ==>
              sent == Some(DecideAndAct(Record.Parse(Strip(raw)).value))
  {
    var line := Strip(raw);
    if |line| == 0 then None
    else if Framed(line) then
      match Record.Parse(line)
      case Some(data) => Some(DecideAndAct(data))
      case None => None
    else None
  }

  /** A line that strips to a framed, readable record is acted on. */
  lemma HandleReadableLine(raw: string, data: map<string, int>)
    ensures Framed(Strip(raw)) && Record.Parse(Strip(raw)) == Some(data) ==>
              HandleLine(raw) == Some(DecideAndAct(data))
  {
  }

  /**
    A framed line whose front value has a leading zero, such as
    `{"F":05,"L":1,"R":2}`, is rejected by `json.loads`, so it sends nothing.
   */
  lemma LeadingZeroLineIgnored(rest: string)
    requires |rest| > 1 && rest[0] == '0' && Record.IsDigit(rest[1]) && rest[|rest| - 1] == '}'
    ensures HandleLine(Record.KeyF + rest + Record.LineEnd) == None
  {
    var body := Record.KeyF + rest;
    assert body[0] == '{' && body[|body| - 1] == '}';
    StripLineEnd(body);
    Record.ExpectPrefix(Record.KeyF, rest);
    assert Record.ParseInt(rest) == None;
    assert Record.ParseField(Record.KeyF, body) == None;
    assert Record.Parse(body) == None;
  }
}

=== FILE: motors.dfy ===
/**
  The two L298N motor channels driven by the firmware, and the five motion
  primitives `forwardMotor`, `backwardMotor`, `turnLeft`, `turnRight` and
  `stopMotors`. Each primitive writes all six outputs (IN1/IN2 and the PWM
  enable of both channels), so it is a pure function to a whole new drive
  state: the previous state is overwritten, never read.
 */
module Motors {
  import opened Wrappers

  /** Logic level on a direction input. */
  datatype Level = Low | High

  /** Duty cycle accepted by `analogWrite` on an 8-bit timer. */
  type Duty = x: int | 0 <= x <= 255

  /** One channel: direction inputs IN1, IN2 and the PWM on its enable pin. */
  datatype Motor = Motor(in1: Level, in2: Level, pwm: Duty)

  /** Left channel (IN1_L, IN2_L, ENA) and right channel (IN1_R, IN2_R, ENB). */
  datatype Drive = Drive(left: Motor, right: Motor)

  /** What a channel's two direction inputs ask of its motor. */
  datatype Spin = Ahead | Astern | Coast | BothHigh

  /** The five motions the firmware can command. */
  datatype Motion = Forward | Backward | PivotLeft | PivotRight | Halt

  /** Default duty of the four moving primitives when called without one. */
  const DefaultPwm: Duty := 140

  function SpinOf(m: Motor): Spin
  {
    match (m.in1, m.in2)
    case (High, Low) => Ahead
    case (Low, High) => Astern
    case (Low, Low) => Coast
    case (High, High) => BothHigh
  }

  /** Neither channel has both direction inputs high. */
  predicate NoShootThrough(d: Drive)
  {
    SpinOf(d.left) != BothHigh && SpinOf(d.right) != BothHigh
  }

  /** Reads the motion back off the direction lines; None for any other pattern. */
  function MotionOf(d: Drive): (m: Option<Motion>)
    ensures m.Some? ==> NoShootThrough(d)
  {
    match (SpinOf(d.left), SpinOf(d.right))
    case (Ahead, Ahead) => Some(Forward)
    case (Astern, Astern) => Some(Backward)
    case (Astern, Ahead) => Some(PivotLeft)
    case (Ahead, Astern) => Some(PivotRight)
    case (Coast, Coast) => Some(Halt)
    case _ => None
  }

  /** Both channels run the other way: IN1 and IN2 swapped on each. */
  function Reversed(d: Drive): Drive
  {
    Drive(Motor(d.left.in2, d.left.in1, d.left.pwm),
          Motor(d.right.in2, d.right.in1, d.right.pwm))
  }

  /** Left and right channels exchanged. */
  function Mirrored(d: Drive): Drive
  {
    Drive(d.right, d.left)
  }

  function ForwardMotor(pwm: Duty): (d: Drive)
    ensures MotionOf(d) == Some(Forward)
    ensures d.left.pwm == pwm && d.right.pwm == pwm
  {
    Drive(Motor(High, Low, pwm), Motor(High, Low, pwm))
  }

  function BackwardMotor(pwm: Duty): (d: Drive)
    ensures MotionOf(d) == Some(Backward)
    ensures d == Reversed(ForwardMotor(pwm))
  {
    Drive(Motor(Low, High, pwm), Motor(Low, High, pwm))
  }

  /** In-place pivot: left wheel backward, right wheel forward. */
  function TurnLeft(pwm: Duty): (d: Drive)
    ensures MotionOf(d) == Some(PivotLeft)
    ensures SpinOf(d.left) == Astern && SpinOf(d.right) == Ahead
    ensures d.left.pwm == pwm && d.right.pwm == pwm
  {
    Drive(Motor(Low, High, pwm), Motor(High, Low, pwm))
  }

  function TurnRight(pwm: Duty): (d: Drive)
    ensures MotionOf(d) == Some(PivotRight)
    ensures d == Mirrored(TurnLeft(pwm))
  {
    Drive(Motor(High, Low, pwm), Motor(Low, High, pwm))
  }

  /** All direction lines low and both duties zero. */
  function StopMotors(): (d: Drive)
    ensures MotionOf(d) == Some(Halt)
    ensures d.left.pwm == 0 && d.right.pwm == 0
    ensures d == Reversed(d) && d == Mirrored(d)
  {
    Drive(Motor(Low, Low, 0), Motor(Low, Low, 0))
  }

  /**
    One entry point over the five primitives. Halt ignores `pwm`, as
    `stopMotors` takes no duty.
   */
  function Actuate(m: Motion, pwm: Duty): (d: Drive)
    ensures MotionOf(d) == Some(m)
    ensures m != Halt ==> d.left.pwm == pwm && d.right.pwm == pwm
    ensures m == Halt ==> d.left.pwm == 0 && d.right.pwm == 0
  {
    match m
    case Forward => ForwardMotor(pwm)
    case Backward => BackwardMotor(pwm)
    case PivotLeft => TurnLeft(pwm)
    case PivotRight => TurnRight(pwm)
    case Halt => StopMotors()
  }

  /** Distinct moving commands give distinct pin states. */
  lemma ActuateInjective(m1: Motion, p1: Duty, m2: Motion, p2: Duty)
    requires Actuate(m1, p1) == Actuate(m2, p2)
    ensures m1 == m2
    ensures m1 != Halt ==> p1 == p2
  {
    assert MotionOf(Actuate(m1, p1)) == Some(m1);
  }

  /** No primitive, at any duty, leaves a channel with both inputs high. */
  lemma PrimitivesNoShootThrough(m: Motion, pwm: Duty)
    ensures NoShootThrough(Actuate(m, pwm))
  {
  }
}

=== FILE: rangefinder.dfy ===
/**
  The HC-SR04 reading of the firmware (`readHCSR04`): an echo pulse width in
  microseconds becomes a distance in centimetres, with 999 standing for
  "no echo" and for "too far to trust".

  Triggering the sensor and timing the echo (`pulseIn`) are hardware; the
  measured pulse width is an input here. `pulseIn` returns 0 when no echo
  arrives within its timeout.
 */
module Rangefinder {

  /** Sentinel distance for a timed-out or out-of-range echo. */
  const NoEcho := 999

  /** Largest distance reported as a real reading, in centimetres. */
  const MaxRangeCm := 600

  /** Echo wait passed to `pulseIn`, in microseconds (about 5 m round trip). */
  const EchoTimeoutUs := 30000

  /**
    Shortest echo whose distance exceeds MaxRangeCm:
    601 cm needs duration * 343 >= 601 * 20000 = 12020000,
    and 12020000 / 343 is just above 35043.
   */
  const ClampDurationUs := 35044

  /**
    `duration * 0.0343 / 2.0` assigned to a `long`: half the round trip at
    343 m/s, truncated toward zero. The duration is never negative, so
    truncation is the floor of the exact quotient duration * 343 / 20000.
   */
  function RawDistance(duration: nat): nat
  {
    duration * 343 / 20000
  }

  /** Truncated division by 20000 is monotone in the dividend. */
  lemma RawDistanceMonotone(a: nat, b: nat)
    requires a <= b
    ensures RawDistance(a) <= RawDistance(b)
  {
    var qa, qb := a * 343 / 20000, b * 343 / 20000;
    assert qa * 20000 <= a * 343 <= b * 343 < (qb + 1) * 20000;
  }

  /** The clamp fires exactly from ClampDurationUs upward. */
  lemma RawDistanceClamp(duration: nat)
    ensures RawDistance(duration) > MaxRangeCm <==> duration >= ClampDurationUs
  {
    var q := duration * 343 / 20000;
    assert q * 20000 <= duration * 343 < (q + 1) * 20000;
    if duration >= ClampDurationUs {
      assert duration * 343 >= ClampDurationUs * 343 == 12020092;
      assert (q + 1) * 20000 > 12020000;
    } else {
      assert duration * 343 <= 35043 * 343 == 12019749;
      assert q * 20000 < 12020000;
    }
  }

  /** The distance `readHCSR04` returns for an echo of `duration` microseconds. */
  function EchoToDistance(duration: nat): (d: int)
    ensures duration == 0 ==> d == NoEcho
    ensures d == NoEcho || 0 <= d <= MaxRangeCm
    ensures d == NoEcho <==> duration == 0 || duration >= ClampDurationUs
    ensures d != NoEcho ==> d * 20000 <= duration * 343 < (d + 1) * 20000
  {
    RawDistanceClamp(duration);
    if duration == 0 then NoEcho
    else
      var dist := RawDistance(duration);
      if dist > MaxRangeCm then NoEcho else dist
  }

  /** Longer echoes never give shorter real readings. */
  lemma EchoToDistanceMonotone(a: nat, b: nat)
    requires 0 < a <= b
    requires EchoToDistance(b) != NoEcho
    ensures EchoToDistance(a) != NoEcho
    ensures EchoToDistance(a) <= EchoToDistance(b)
  {
    RawDistanceMonotone(a, b);
  }

  /**
    Every echo `pulseIn` can report within its 30 ms wait converts to at most
    514 cm, so within the timeout only a zero duration yields the sentinel:
    the 600 cm clamp never fires on real readings.
   */
  lemma WithinTimeoutNeverClamped(duration: nat)
    requires 0 < duration <= EchoTimeoutUs
    ensures EchoToDistance(duration) != NoEcho
    ensures EchoToDistance(duration) <= 514
  {
    RawDistanceMonotone(duration, EchoTimeoutUs);
  }

  /** The two durations on either side of the clamp. */
  lemma ClampBoundary()
    ensures EchoToDistance(ClampDurationUs - 1) == MaxRangeCm
    ensures EchoToDistance(ClampDurationUs) == NoEcho
  {
  }
}

=== FILE: record.dfy ===
/**
  The telemetry line: the firmware prints `{"F":dF,"L":dL,"R":dR}` with
  `Serial.print` of each `long` in decimal, then `println` adds CR LF.
  The host reads such a line back into a key/value record; the parser here
  stands in for `json.loads` on exactly the lines the firmware prints.
 */
module Record {
  import opened Wrappers

  predicate IsDigit(c: char)
  {
    '0' <= c <= '9'
  }

  predicate AllDigits(s: string)
  {
    forall i :: 0 <= i < |s| ==> IsDigit(s[i])
  }

  function DigitChar(n: nat): (c: char)
    requires n < 10
    ensures IsDigit(c)
  {
    (48 + n) as char
  }

  /** Decimal digits of `n`, most significant first, no leading zero. */
  function Digits(n: nat): (s: string)
    ensures |s| > 0 && AllDigits(s)
    ensures s[0] == '0' ==> n == 0
    decreases n
  {
    if n < 10 then [DigitChar(n)]
    else Digits(n / 10) + [DigitChar(n % 10)]
  }

  /** `Print::print(long)`: a minus sign for negative values, then the magnitude. */
  function Decimal(n: int): (s: string)
    ensures |s| > 0
    ensures n >= 0 <==> IsDigit(s[0])
  {
    if n < 0 then "-" + Digits(-n) else Digits(n)
  }

  /** Value of a run of decimal digits. */
  function DigitsValue(s: string): nat
    requires AllDigits(s)
  {
    if |s| == 0 then 0
    else DigitsValue(s[..|s| - 1]) * 10 + (s[|s| - 1] as int - 48)
  }

  lemma {:induction false} DigitsRoundTrip(n: nat)
    ensures DigitsValue(Digits(n)) == n
    decreases n
  {
    if n >= 10 {
      var s := Digits(n);
      assert s[..|s| - 1] == Digits(n / 10);
      DigitsRoundTrip(n / 10);
    }
  }

  /** Length of the longest run of digits at the front of `s`. */
  function SpanDigits(s: string): (k: nat)
    ensures k <= |s| && AllDigits(s[..k])
    ensures k < |s| ==> !IsDigit(s[k])
  {
    if |s| == 0 || !IsDigit(s[0]) then 0
    else
      var k := 1 + SpanDigits(s[1..]);
      assert s[..k] == [s[0]] + s[1..][..k - 1];
      k
  }

  lemma {:induction false} SpanDigitsOf(ds: string, rest: string)
    requires AllDigits(ds)
    requires rest == [] || !IsDigit(rest[0])
    ensures SpanDigits(ds + rest) == |ds|
    decreases |ds|
  {
    if |ds| > 0 {
      assert (ds + rest)[1..] == ds[1..] + rest;
      SpanDigitsOf(ds[1..], rest);
    } else {
      assert ds + rest == rest;
    }
  }

  /**
    Reads an unsigned run of digits off the front of `s`. As in JSON, a
    number of more than one digit may not start with '0'.
   */
  function ParseMagnitude(s: string): (r: Option<(nat, string)>)
    ensures r.Some? ==> 0 < |s| - |r.value.1| && r.value.1 == s[|s| - |r.value.1|..]
    ensures r.Some? ==> IsDigit(s[0])
  {
    var k := SpanDigits(s);
    if k == 0 || (k > 1 && s[0] == '0') then None
    else
      Some((DigitsValue(s[..k]), s[k..]))
  }

  /** Reads an optionally signed decimal integer off the front of `s`. */
  function ParseInt(s: string): (r: Option<(int, string)>)
    ensures r.Some? ==> 0 < |s| - |r.value.1| && r.value.1 == s[|s| - |r.value.1|..]
    ensures |s| > 1 && s[0] == '0' && IsDigit(s[1]) ==> r.None?
  {
    if |s| > 0 && s[0] == '-' then
      var m :- ParseMagnitude(s[1..]);
      Some((0 - m.0, m.1))
    else
      var m :- ParseMagnitude(s);
      Some((m.0, m.1))
  }

  lemma ParseMagnitudeDigits(m: nat, rest: string)
    requires rest == [] || !IsDigit(rest[0])
    ensures ParseMagnitude(Digits(m) + rest) == Some((m, rest))
  {
    var ds := Digits(m);
    SpanDigitsOf(ds, rest);
    DigitsRoundTrip(m);
    assert |ds| > 1 ==> ds[0] != '0';
    assert (ds + rest)[0] == ds[0];
    assert (ds + rest)[..|ds|] == ds;
    assert (ds + rest)[|ds|..] == rest;
  }

  lemma ParseIntNegative(t: string, m: nat, rest: string)
    requires ParseMagnitude(t) == Some((m, rest))
    ensures ParseInt("-" + t) == Some((-(m as int), rest))
  {
    assert ("-" + t)[0] == '-';
    assert ("-" + t)[1..] == t;
  }

  lemma ParseIntNonNegative(t: string, m: nat, rest: string)
    requires |t| > 0 && t[0] != '-'
    requires ParseMagnitude(t) == Some((m, rest))
    ensures ParseInt(t) == Some((m, rest))
  {
  }

  /** A printed negative integer reads back: the sign, then its magnitude. */
  lemma ParseIntDecimalNegative(n: int, rest: string)
    requires n < 0 && (rest == [] || !IsDigit(rest[0]))
    ensures ParseInt(Decimal(n) + rest) == Some((n, rest))
  {
    var ds := Digits(-n);
    var t := ds + rest;
    assert Decimal(n) + rest == "-" + t by {
      assert Decimal(n) == "-" + ds;
    }
    ParseMagnitudeDigits(-n, rest);
    ParseIntNegative(t, -n, rest);
  }

  /** A printed non-negative integer reads back as its digits' value. */
  lemma ParseIntDecimalNonNegative(n: int, rest: string)
    requires n >= 0 && (rest == [] || !IsDigit(rest[0]))
    ensures ParseInt(Decimal(n) + rest) == Some((n, rest))
  {
    var ds := Digits(n);
    var t := ds + rest;
    ParseMagnitudeDigits(n, rest);
    assert Decimal(n) == ds;
    assert t[0] == ds[0];
    ParseIntNonNegative(t, n, rest);
  }

  /** Printing then reading an integer gives it back, and leaves what follows untouched. */
  lemma ParseIntDecimal(n: int, rest: string)
    requires rest == [] || !IsDigit(rest[0])
    ensures ParseInt(Decimal(n) + rest) == Some((n, rest))
  {
    if n < 0 {
      ParseIntDecimalNegative(n, rest);
    } else {
      ParseIntDecimalNonNegative(n, rest);
    }
  }

  /** What follows `prefix` in `s`, if `s` starts with it. */
  function Expect(prefix: string, s: string): (r: Option<string>)
    ensures r.Some? <==> prefix <= s
    ensures r.Some? ==> s == prefix + r.value
  {
    if prefix <= s then Some(s[|prefix|..]) else None
  }

  lemma ExpectPrefix(prefix: string, rest: string)
    ensures Expect(prefix, prefix + rest) == Some(rest)
  {
    assert prefix <= prefix + rest;
    assert (prefix + rest)[|prefix|..] == rest;
  }

  const KeyF := "{\"F\":"
  const KeyL := ",\"L\":"
  const KeyR := ",\"R\":"
  const Close := "}"

  /** One `Serial.print` of a key literal followed by one of a value, then what comes after. */
  function Field(key: string, n: int, rest: string): string
  {
    key + (Decimal(n) + rest)
  }

  /** The record body the firmware prints before the line terminator. */
  function Format(f: int, l: int, r: int): (s: string)
    ensures |s| >= 2 && s[0] == '{' && s[|s| - 1] == '}'
  {
    var tail := Field(KeyL, l, Field(KeyR, r, Close));
    assert tail[|tail| - 1] == '}' by {
      var t := Field(KeyR, r, Close);
      assert t[|t| - 1] == '}';
    }
    Field(KeyF, f, tail)
  }

  /** `Serial.println` terminates the line with carriage return and line feed. */
  const LineEnd := "\r\n"

  /** Reads `key` and the integer after it off the front of `s`. */
  function ParseField(key: string, s: string): Option<(int, string)>
  {
    var a :- Expect(key, s);
    ParseInt(a)
  }

  lemma ParseFieldOf(key: string, n: int, rest: string)
    requires rest == [] || !IsDigit(rest[0])
    ensures ParseField(key, Field(key, n, rest)) == Some((n, rest))
  {
    ExpectPrefix(key, Decimal(n) + rest);
    ParseIntDecimal(n, rest);
  }

  /** `t` is what is left of `s` after some non-empty prefix. */
  predicate ProperSuffix(t: string, s: string)
  {
    |t| < |s| && t == s[|s| - |t|..]
  }

  /** A field that reads leaves a proper suffix of its input, after its key. */
  lemma ParseFieldSuffix(key: string, s: string)
    ensures ParseField(key, s).Some? ==> key <= s && ProperSuffix(ParseField(key, s).value.1, s)
  {
    if ParseField(key, s).Some? {
      var a := Expect(key, s).value;
      var rest := ParseInt(a).value.1;
      assert s == key + a;
      assert a[|a| - |rest|..] == s[|s| - |rest|..];
    }
  }

  /** A non-empty proper suffix ends where its whole ends. */
  lemma SuffixLast(t: string, s: string)
    requires ProperSuffix(t, s) && |t| > 0
    ensures s[|s| - 1] == t[|t| - 1]
  {
  }

  /** The last character of a line is that of the last of a chain of proper suffixes. */
  lemma SuffixChainLast(s: string, a: string, b: string, c: string)
    requires ProperSuffix(a, s) && ProperSuffix(b, a) && ProperSuffix(c, b) && |c| > 0
    ensures s[|s| - 1] == c[|c| - 1]
  {
    SuffixLast(c, b);
    SuffixLast(b, a);
    SuffixLast(a, s);
  }

  /** A decoded record has exactly the three keys. */
  lemma RecordKeys(f: int, l: int, r: int)
    ensures map["F" := f, "L" := l, "R" := r].Keys == {"F", "L", "R"}
  {
  }

  /**
    Reads a record line back into its three fields: the firmware's key
    order, integers in JSON's form (no leading zeros, any length), nothing
    around them.
   */
  function Parse(s: string): (r: Option<map<string, int>>)
    ensures r.Some? ==> r.value.Keys == {"F", "L", "R"}
    ensures r.Some? ==> KeyF <= s && s[|s| - 1] == '}'
  {
    var pf :- ParseField(KeyF, s);
    var pl :- ParseField(KeyL, pf.1);
    var pr :- ParseField(KeyR, pl.1);
    if pr.1 == Close then
      ParseFieldSuffix(KeyF, s);
      ParseFieldSuffix(KeyL, pf.1);
      ParseFieldSuffix(KeyR, pl.1);
      SuffixChainLast(s, pf.1, pl.1, pr.1);
      RecordKeys(pf.0, pl.0, pr.0);
      Some(map["F" := pf.0, "L" := pl.0, "R" := pr.0])
    else None
  }

  /** The host reads back exactly the three distances the firmware printed. */
  lemma ParseFormat(f: int, l: int, r: int)
    ensures Parse(Format(f, l, r)) == Some(map["F" := f, "L" := l, "R" := r])
  {
    var tailR := Field(KeyR, r, Close);
    var tailL := Field(KeyL, l, tailR);
    ParseFieldOf(KeyF, f, tailL);
    ParseFieldOf(KeyL, l, tailR);
    ParseFieldOf(KeyR, r, Close);
  }

  /** Distinct readings print distinct lines. */
  lemma FormatInjective(f1: int, l1: int, r1: int, f2: int, l2: int, r2: int)
    ensures (f1, l1, r1) != (f2, l2, r2) ==> Format(f1, l1, r1) != Format(f2, l2, r2)
  {
    var m1 := map["F" := f1, "L" := l1, "R" := r1];
    var m2 := map["F" := f2, "L" := l2, "R" := r2];
    ParseFormat(f1, l1, r1);
    ParseFormat(f2, l2, r2);
    if Format(f1, l1, r1) == Format(f2, l2, r2) {
      assert Some(m1) == Some(m2);
      assert m1["F"] == m2["F"] && m1["L"] == m2["L"] && m1["R"] == m2["R"];
    }
  }

  /** The example reading Front=20, Left=999, Right=999. */
  lemma FormatExample()
    ensures Format(20, 999, 999) == "{\"F\":20,\"L\":999,\"R\":999}"
  {
  }
}

=== FILE: rover.dfy ===
/**
  Properties of the firmware and the host script together: the host's
  output alphabet is the firmware's command alphabet, the firmware's 999
  sentinel is what the host's edge threshold catches, and every telemetry
  line the firmware prints is one the host acts on.
 */
module Rover {
  import opened Wrappers
  import opened Motors
  import Commands
  import Rangefinder
  import Record
  import Telemetry
  import Host
  import Firmware

  /**
    Once the firmware has drained a host reaction, the rover is stopped
    after an edge or close obstacle, and driving forward at 120 otherwise,
    whatever it was doing before.
   */
  lemma ReactionOutcome(f: int, l: int, r: int, d: Drive)
    ensures Commands.Drain(Host.Decide(f, l, r), d)
            == if Host.Reacts(f) then StopMotors() else ForwardMotor(Commands.DrivePwm)
  {
    var cmds := Host.Decide(f, l, r);
    var last := cmds[|cmds| - 1];
    assert Commands.IsCommand(last);
    assert Commands.LastCommand(cmds) == Some(last);
    Commands.DrainLastWins(cmds, d);
  }

  /** A host reaction never drives the firmware out of its consistent states. */
  lemma ReactionConsistent(f: int, l: int, r: int, d: Drive)
    requires Commands.Consistent(d)
    ensures Commands.Consistent(Commands.Drain(Host.Decide(f, l, r), d))
  {
  }

  /**
    The 900 cm edge threshold separates the firmware's sentinel from every
    real reading: a measured front distance triggers the edge branch exactly
    when it is the 999 sentinel.
   */
  lemma EdgeIsSentinel(echo: nat)
    ensures Host.IsEdge(Rangefinder.EchoToDistance(echo))
            <==> Rangefinder.EchoToDistance(echo) == Rangefinder.NoEcho
  {
  }

  /** A front echo timeout makes the host back off and turn left. */
  lemma TimeoutIsEdge(l: int, r: int)
    ensures Host.Decide(Rangefinder.EchoToDistance(0), l, r) == "SBSLS"
  {
  }

  /** The missing-key default and the firmware's sentinel land in the same branch. */
  lemma MissingKeyMatchesSentinel(data: map<string, int>)
    requires "F" !in data
    ensures Host.DecideAndAct(data)
            == Host.Decide(Rangefinder.NoEcho, Host.Reading(data, "L"), Host.Reading(data, "R"))
  {
  }

  /** A printed telemetry line strips to a framed record that reads back as its three distances. */
  lemma TelemetryLineReadable(f: int, l: int, r: int)
    ensures var raw := Record.Format(f, l, r) + Record.LineEnd;
            && Host.Framed(Host.Strip(raw))
            && Record.Parse(Host.Strip(raw)) == Some(map["F" := f, "L" := l, "R" := r])
  {
    var body := Record.Format(f, l, r);
    Host.StripLineEnd(body);
    Record.ParseFormat(f, l, r);
  }

  /** A record holding all three keys is decided on exactly its values. */
  lemma DecideFullRecord(f: int, l: int, r: int)
    ensures Host.DecideAndAct(map["F" := f, "L" := l, "R" := r]) == Host.Decide(f, l, r)
  {
    var m := map["F" := f, "L" := l, "R" := r];
    assert "F" in m && "L" in m && "R" in m;
    assert m["F"] == f && m["L"] == l && m["R"] == r;
  }

  /**
    A telemetry line the firmware prints passes the host's blank-line and
    `{`…`}` filters, decodes to the three distances measured, and makes the
    host send exactly what `decide_and_act` chooses for them.
   */
  lemma TelemetryReachesHost(f: int, l: int, r: int)
    ensures Host.HandleLine(Record.Format(f, l, r) + Record.LineEnd) == Some(Host.Decide(f, l, r))
  {
    TelemetryLineReadable(f, l, r);
    Host.HandleReadableLine(Record.Format(f, l, r) + Record.LineEnd, map["F" := f, "L" := l, "R" := r]);
    DecideFullRecord(f, l, r);
  }

  /**
    One round trip of the rover: a firmware pass whose telemetry gate is open
    prints a record, and the host answers it. The host paces its answer, so
    the bytes arrive over however many passes it spans; by
    `Commands.DrainAppend` draining them pass by pass ends where draining the
    whole answer at once does. The motors end stopped after an edge or close
    obstacle ahead, otherwise driving forward.
   */
  lemma ClosedLoop(s: Firmware.State, c: Firmware.Cycle)
    requires Telemetry.Elapsed(c.now, s.lastSerial) >= Telemetry.SerialPeriodMs
    ensures var step := Firmware.Loop(s, c);
            && step.line.Some?
            && Host.HandleLine(step.line.value).Some?
            && Commands.Drain(Host.HandleLine(step.line.value).value, step.state.drive)
               == if Host.Reacts(Rangefinder.EchoToDistance(c.echoF))
                  then StopMotors() else ForwardMotor(Commands.DrivePwm)
  {
    var dF := Rangefinder.EchoToDistance(c.echoF);
    var dL := Rangefinder.EchoToDistance(c.echoL);
    var dR := Rangefinder.EchoToDistance(c.echoR);
    var step := Firmware.Loop(s, c);
    assert step.line.value == Record.Format(dF, dL, dR) + Record.LineEnd;
    TelemetryReachesHost(dF, dL, dR);
    ReactionOutcome(dF, dL, dR, step.state.drive);
  }
}

=== FILE: telemetry.dfy ===
/**
  The telemetry gate of `loop`: a record goes out when at least
  SERIAL_PERIOD_MS milliseconds have passed since the last one, measured on
  the `unsigned long` millisecond clock, which wraps modulo 2^32.
 */
module Telemetry {
  import opened Wrappers
  import Record

  const Modulus := 0x1_0000_0000

  /** An `unsigned long` on the AVR: 32 bits. */
  type U32 = x: int | 0 <= x < 0x1_0000_0000

  const SerialPeriodMs: U32 := 150

  /** `now - lastSerial` on `unsigned long`: the difference wrapped into 32 bits. */
  function Elapsed(now: U32, last: U32): (e: U32)
    ensures now >= last ==> e == now - last
    ensures now < last ==> e == now - last + Modulus
    ensures (last + e) % Modulus == now
  {
    (now - last) % Modulus
  }

  /** The gate's output: the new `lastSerial` and the line printed, if any. */
  datatype Emission = Emission(lastSerial: U32, line: Option<string>)

  /** One pass of the telemetry block, given the three distances just measured. */
  function Gate(lastSerial: U32, now: U32, dF: int, dL: int, dR: int): (e: Emission)
    ensures e.line.Some? <==> Elapsed(now, lastSerial) >= SerialPeriodMs
    ensures e.line.Some? ==> e.lastSerial == now
    ensures e.line.Some? ==> |e.line.value| > |Record.LineEnd|
                             && e.line.value[|e.line.value| - |Record.LineEnd|..] == Record.LineEnd
    ensures e.line.Some? ==> Record.Parse(e.line.value[..|e.line.value| - |Record.LineEnd|])
                               == Some(map["F" := dF, "L" := dL, "R" := dR])
    ensures e.line.None? ==> e.lastSerial == lastSerial
  {
    if Elapsed(now, lastSerial) >= SerialPeriodMs then
      var body := Record.Format(dF, dL, dR);
      Record.ParseFormat(dF, dL, dR);
      assert (body + Record.LineEnd)[..|body|] == body;
      assert (body + Record.LineEnd)[|body|..] == Record.LineEnd;
      Emission(now, Some(body + Record.LineEnd))
    else
      Emission(lastSerial, None)
  }

  /** A clock reading and the three distances measured in the same cycle. */
  datatype Tick = Tick(now: U32, dF: int, dL: int, dR: int)

  /** The clock readings of a run of cycles, in order. */
  function Nows(ticks: seq<Tick>): (nows: seq<U32>)
    ensures |nows| == |ticks|
    ensures forall i :: 0 <= i < |ticks| ==> nows[i] == ticks[i].now
  {
    seq(|ticks|, i requires 0 <= i < |ticks| => ticks[i].now)
  }

  /** `a` is `b` with some elements left out, the rest kept in order. */
  predicate IsSubsequence(a: seq<U32>, b: seq<U32>)
    decreases |b|
  {
    |a| <= |b| && (|a| == 0 || (a[0] == b[0] && IsSubsequence(a[1..], b[1..])) || IsSubsequence(a, b[1..]))
  }

  /**
    The clock readings at which records go out over a run of cycles: some of
    the passes' readings, in order, one per pass at most; the first pass
    emits when it is due; and nothing goes out at all exactly when no pass
    is due against the initial `lastSerial`, which only an emission moves.
   */
  function EmissionTimes(lastSerial: U32, ticks: seq<Tick>): (times: seq<U32>)
    ensures IsSubsequence(times, Nows(ticks))
    ensures |ticks| > 0 && Elapsed(ticks[0].now, lastSerial) >= SerialPeriodMs ==>
              |times| > 0 && times[0] == ticks[0].now
    ensures |times| == 0 <==>
              forall i :: 0 <= i < |ticks| ==> Elapsed(ticks[i].now, lastSerial) < SerialPeriodMs
    decreases |ticks|
  {
    if |ticks| == 0 then []
    else
      var t := ticks[0];
      var e := Gate(lastSerial, t.now, t.dF, t.dL, t.dR);
      assert Nows(ticks)[1..] == Nows(ticks[1..]);
      assert forall i :: 1 <= i < |ticks| ==> ticks[i] == ticks[1..][i - 1];
      if e.line.Some? then [t.now] + EmissionTimes(e.lastSerial, ticks[1..])
      else EmissionTimes(e.lastSerial, ticks[1..])
  }

  /**
    Consecutive records are at least SerialPeriodMs apart on the wrapping
    clock, and the first is at least that far from the initial `lastSerial`.
   */
  lemma {:induction false} EmissionsSpaced(lastSerial: U32, ticks: seq<Tick>)
    ensures var times := EmissionTimes(lastSerial, ticks);
            && (|times| > 0 ==> Elapsed(times[0], lastSerial) >= SerialPeriodMs)
            && forall i | 1 <= i < |times| :: Elapsed(times[i], times[i - 1]) >= SerialPeriodMs
    decreases |ticks|
  {
    if |ticks| > 0 {
      var t := ticks[0];
      var e := Gate(lastSerial, t.now, t.dF, t.dL, t.dR);
      EmissionsSpaced(e.lastSerial, ticks[1..]);
      var rest := EmissionTimes(e.lastSerial, ticks[1..]);
      if e.line.Some? {
        var times := [t.now] + rest;
        forall i | 1 <= i < |times|
          ensures Elapsed(times[i], times[i - 1]) >= SerialPeriodMs
        {
          assert times[i] == rest[i - 1];
          if i > 1 {
            assert times[i - 1] == rest[i - 2];
          }
        }
      }
    }
  }

  /** While the clock has not wrapped, "due" is plain subtraction. */
  lemma DueWithoutWrap(lastSerial: U32, now: U32, dF: int, dL: int, dR: int)
    requires lastSerial <= now
    ensures Gate(lastSerial, now, dF, dL, dR).line.Some? <==> now - lastSerial >= SerialPeriodMs
  {
  }

  /**
    Across a wrap of the clock, a record goes out exactly when 150 ms have
    passed on the unwrapped clock: not earlier, and not a whole wrap later.
   */
  lemma DueAcrossWrap(lastSerial: U32, now: U32, dF: int, dL: int, dR: int)
    requires now < lastSerial
    ensures Gate(lastSerial, now, dF, dL, dR).line.Some? <==> now + Modulus - lastSerial >= SerialPeriodMs
  {
  }

  /** 100 ms before the wrap, the gate stays shut at 49 and opens at 50. */
  lemma DueAcrossWrapExample()
    ensures Gate(Modulus - 100, 49, 0, 0, 0).line.None?
    ensures Gate(Modulus - 100, 50, 0, 0, 0).line.Some?
  {
    DueAcrossWrap(Modulus - 100, 49, 0, 0, 0);
    DueAcrossWrap(Modulus - 100, 50, 0, 0, 0);
  }
}

=== FILE: wrappers.dfy ===
/** An optional value, used for parse results and for the telemetry line a pass may print. */
module Wrappers {

  /**
    `None` marks "nothing": an unreadable field, or no line printed. The three
    members let `:-` stop a parse at the first `None`.
   */
  datatype Option<+T> = None | Some(value: T) {

    predicate IsFailure()
    {
      None?
    }

    function PropagateFailure<U>(): Option<U>
      requires None?
    {
      None
    }

    function Extract(): T
      requires Some?
    {
      value
    }
  }
}
